=== FILE: README.md ===
# AzureBlobStorage, modelled in Dafny

`AzureBlobStorage` is a Django storage backend. It keeps no files itself: every storage method
(`_save`, `_open`, `delete`, `exists`, `url`, `size`, `get_created_time`, `get_modified_time`,
`listdir`) sends one HTTP request to a blob gateway and turns the reply into the method's result.
`get_accessed_time` sends no request.

This model makes both halves pure. A request is a value built from the configuration and the
operation (`Storage.BuildRequest`). The gateway's reply is an input, `Response = NetworkError |
Http(status, content, json)`, and each method's behaviour is a total function from that reply to
`Outcome<T> = Returns(value) | Raises(exception)`. The Python exceptions that can leave a method
are values of `Errors.Exception`.

Files:

- `optional.dfy`: `Option`, standing for Python's `None`.
- `utf8.dfy`: UTF-8 encoding and decoding of a name.
- `percent_encoding.dfy`: `quote(name, safe='')`, which is percent-encoding per section 2.1 of RFC 3986.
  Only the unreserved set of section 2.3 passes through. The file also holds the decoder and the
  round-trip lemmas.
- `json.dfy`: decoded JSON values. It models `dict.get` (the last duplicate key wins), Python
  truthiness, and the key order of dict iteration.
- `gateway.dfy`: requests, replies, and `raise_for_status`.
- `errors.dfy`: the exceptions and `Outcome`.
- `storage.dfy`: construction, headers, request building, and reading a URL back to its endpoint
  and name. It also holds the interpreters for every method except `listdir`.
- `listing.dfy`: `listdir`, meaning prefix normalisation, `str.replace` and the per-entry stripping.
- `degradation.dfy`: the error policy across all methods.

Behaviour of the code worth noting, which the model reproduces:

- The bearer header goes only on the upload and download-stream requests. The delete, exists,
  download, info and list requests carry no headers.
- The best-effort methods (delete, exists, url, size, the times and listdir) can raise. On a
  200 reply:
  - JSON that is not an object makes `.get` raise `AttributeError`
    (`Degradation.BestEffortRaisesOnNonObjectJson`).
  - A truthy `last_modified` that is not a string makes the date parser raise `AttributeError`
    from `str.split` (`Storage.InterpretCreatedTime`).
  - For a non-empty path, a `folders` or `files` field that is not iterable (`null`, a boolean or
    a number) raises `TypeError` (`Listing.Iterate`). An entry that is not a string raises
    `AttributeError` from `.replace` (`Listing.StripEach`).
- There is no content-type guessing from the file extension. Without a `content_type` attribute
  the upload is `application/octet-stream`.
- `listdir` removes every occurrence of the prefix from an entry, not just a leading one
  (`Listing.RemoveAllInnerOccurrence`).
- There is no session reuse, no loopback-host rewriting of `base_url`, and no latency logging.
  Each call is a fresh `requests` call.

## Model

| member | source | states |
|---|---|---|
| Storage.NewStorage | djazurino/djazurino/storages.py:21-24 | Each of `base_url`, `folder` and `api_token` is taken from a truthy argument. Otherwise it comes from the Django setting, and otherwise from the defaults `http://localhost:4000/api`, `uploads` and no token. |
| Storage.AuthHeaders | djazurino/djazurino/storages.py:26-31 | The header map has an `Authorization` key exactly when the token is truthy. It has no other key, and the value is `Bearer ` followed by the token. |
| Storage.UploadContentType | djazurino/djazurino/storages.py:48 | The upload's content type is the stream's `content_type` attribute when there is one, even if it is `None`. Otherwise it is `application/octet-stream`. |
| Storage.BuildRequest | djazurino/djazurino/storages.py:44-195 | Only the upload and download-stream requests carry the auth headers; all others carry none. Timeouts are 30 s for upload and download and 10 s for the rest. The verb is POST for upload, DELETE for delete and GET otherwise. Only the upload has a file part, and only the listing has query parameters. |
| Storage.UploadRequestShape | djazurino/djazurino/storages.py:44-52 | The upload goes to `base_url/upload` with form field `folder` set to the configured folder. The file part carries the requested name and the whole stream, read from the start wherever the stream was positioned. |
| Storage.ListRequestShape | djazurino/djazurino/storages.py:191-195 | The listing goes to `base_url/list`. The `folder` parameter is present exactly when the path is not empty. |
| Storage.RouteNamedUrl | djazurino/djazurino/storages.py:76 | Reading a URL `base_url + /endpoint/ + quote(name)` back yields that endpoint and that exact name. The encoded name is one path segment, and no two endpoints or names collide. |
| Storage.NamedRequestRoutes | djazurino/djazurino/storages.py:76-164 | The requests of open, delete, exists, url, size and the time methods target `/download-stream/`, `/delete/`, `/exists/`, `/download/` and `/info/` (size and both times) followed by the encoded name. Each URL routes back to that endpoint and name. |
| PercentEncoding.QuoteBytes | djazurino/djazurino/storages.py:96 | The output uses only unreserved characters and `%XX` triples with upper-case hex digits. Each byte becomes one or three characters. |
| PercentEncoding.QuoteBytesOne | djazurino/djazurino/storages.py:76 | A single byte is encoded as `QuoteByte` says: itself when unreserved, otherwise `%` and two upper-case hex digits of its value. |
| PercentEncoding.QuoteBytesAppend | djazurino/djazurino/storages.py:76 | Encoding works byte by byte, so the encoding of `a + b` is the encoding of `a` followed by that of `b`. With `QuoteBytesOne` this fixes the output for every byte string. |
| Utf8.EncodeAppend | djazurino/djazurino/storages.py:76 | UTF-8 encoding works character by character, so it distributes over concatenation. |
| PercentEncoding.QuoteAppend | djazurino/djazurino/storages.py:76 | A name is encoded character by character: the encoding of `a + b` is that of `a` followed by that of `b`. |
| PercentEncoding.QuoteKeepsUnreserved | djazurino/djazurino/storages.py:76 | An unreserved character stays literal wherever it stands in a name, whatever surrounds it, so `quote("a ")` is `a%20`. |
| PercentEncoding.Quote | djazurino/djazurino/storages.py:115 | An encoded name is a well-formed segment and never contains `/`. |
| PercentEncoding.UnquoteQuoteBytes | djazurino/djazurino/storages.py:132 | Percent-decoding inverts the encoding on every byte string. |
| PercentEncoding.QuoteRoundTrip | djazurino/djazurino/storages.py:146 | Decoding an encoded name gives the UTF-8 bytes of the name, and decoding those gives the name. |
| PercentEncoding.QuoteInjective | djazurino/djazurino/storages.py:164 | Different names never share an encoded segment. |
| PercentEncoding.QuoteUnreservedUnchanged | djazurino/djazurino/storages.py:76 | A name made only of `A-Z a-z 0-9 - . _ ~` passes through unchanged. |
| Utf8.DecodeEncode | djazurino/djazurino/storages.py:96 | The UTF-8 encoding that `quote` applies decodes back to the original name. |
| Json.Lookup | djazurino/djazurino/storages.py:56-58 | `dict.get(key, default)` yields the default when the key is absent. When the key is present it yields the value of its last occurrence. |
| Json.Keys | djazurino/djazurino/storages.py:205 | Iterating a dict yields each key of the object exactly once and no other value. Keys come in the order of their first occurrence in the document. |
| Storage.InterpretSave | djazurino/djazurino/storages.py:51-62 | The upload returns exactly when the status passes `raise_for_status` and the body is a JSON object with `status == "success"`. It then returns `blob_path`, or the requested name when that is absent. A network error, a 4xx/5xx status and an undecodable body each raise "Upload request failed", carrying that cause. An object whose `status` is anything else raises "Upload failed" carrying `message`, defaulting to "Unknown error". Decoded JSON that is not an object raises `AttributeError` from `.get`, and nothing else does. |
| Storage.InterpretOpen | djazurino/djazurino/storages.py:78-89 | The download raises `FileNotFoundError` exactly on 404. It raises "Download failed" exactly on a network error or another 4xx/5xx. Otherwise it returns exactly the reply's bytes tagged with the name. |
| Storage.InterpretDelete | djazurino/djazurino/storages.py:98-111 | Delete returns for a network error, a 404, an undecodable body, an `error` body or any object. It raises only when a non-404 reply's JSON is not an object. |
| Storage.MetadataField | djazurino/djazurino/storages.py:117-125 | The shared pattern of exists, url and size: a 200 object reply yields `data.get(key, default)`. A network error, another status or an undecodable body yields the default. A 200 non-object reply raises `AttributeError`. |
| Storage.InterpretExists | djazurino/djazurino/storages.py:117-125 | On a 200 object reply `exists` is `data.get('exists', False)`; on every other reply that does not raise it is `False`. It raises only on a 200 non-object reply. |
| Storage.InterpretUrl | djazurino/djazurino/storages.py:134-142 | On a 200 object reply `url` is `data.get('url')`; on every other reply that does not raise it is `None`. It raises only on a 200 non-object reply. |
| Storage.InterpretSize | djazurino/djazurino/storages.py:148-156 | On a 200 object reply `size` is `data.get('size', 0)`; on every other reply that does not raise it is `0`. It raises only on a 200 non-object reply. |
| Storage.AccessedTime | djazurino/djazurino/storages.py:158-160 | The accessed time is always `None`. |
| Storage.InterpretCreatedTime | djazurino/djazurino/storages.py:166-178 | A 200 object reply with a non-empty string `last_modified` returns that string's parse. Every other reply that does not raise returns `None`. It raises `AttributeError` exactly on a 200 non-object reply or a truthy non-string `last_modified`. |
| Storage.InterpretModifiedTime | djazurino/djazurino/storages.py:180-182 | The modified time is the created time. |
| Storage.ModifiedTimeIsCreatedTime | djazurino/djazurino/storages.py:180-182 | Modified time sends the same request as created time, to the same `/info/` URL as size, and reads every reply the same way. |
| Listing.RStrip | djazurino/djazurino/storages.py:204 | `rstrip(c)` returns the longest prefix not ending in `c`. Everything it drops is `c`. |
| Listing.ListingPrefix | djazurino/djazurino/storages.py:204 | The prefix ends in exactly one `/` and agrees with the path up to that slash. The path holds only slashes after that point. |
| Listing.ListingPrefixIgnoresTrailingSlash | djazurino/djazurino/storages.py:204 | `docs` and `docs/` give the same prefix. |
| Listing.ListingPrefixOfPlainPath | djazurino/djazurino/storages.py:204 | A path without a trailing slash gives the prefix path + `/`. |
| Listing.ListingPrefixOfSlashes | djazurino/djazurino/storages.py:204 | A path made only of slashes gives the prefix `/`. |
| Listing.RemoveAll | djazurino/djazurino/storages.py:205-206 | `replace(p, '')` never lengthens an entry and leaves an entry that does not contain `p` unchanged. |
| Listing.RemoveAllFirstOccurrence | djazurino/djazurino/storages.py:205-206 | `replace(p, '')` is one left-to-right pass. When `a + p` ends at the first occurrence of `p` in `a + p + b`, the result is `a` followed by the result for `b`. |
| Listing.RemoveAllSinglePass | djazurino/djazurino/storages.py:206 | An occurrence that a cut creates is not removed: `"aa//".replace("a/", "")` is `"a/"`. |
| Listing.RemoveAllLeading | djazurino/djazurino/storages.py:206 | A leading occurrence of the prefix is cut, and the scan continues after it. |
| Listing.StripEntryUnderPrefix | djazurino/djazurino/storages.py:205-206 | An entry `prefix + rest` comes back as `rest` when `rest` does not contain the prefix again. A folder entry also loses its trailing slashes. |
| Listing.RemoveAllOneChar | djazurino/djazurino/storages.py:205-206 | Removing a one-character pattern equals deleting every occurrence of that character. |
| Listing.RemoveAllInnerOccurrence | djazurino/djazurino/storages.py:206 | Under `docs/`, the entry `docs/a/docs/b.txt` becomes `a/b.txt`. Inner occurrences are removed too. |
| Listing.Iterate | djazurino/djazurino/storages.py:205-206 | A list yields its items, a string its characters and an object its keys in dict order. `null`, booleans and numbers raise `TypeError`. |
| Listing.StripEntry | djazurino/djazurino/storages.py:205-206 | A file entry becomes `entry.replace(prefix, '')`. A folder entry becomes that text with its trailing slashes dropped, and only slashes are dropped. |
| Listing.StripListing | djazurino/djazurino/storages.py:205-206 | The comprehension over a field succeeds exactly when the field is iterable and yields only strings. It then gives a list of the same length and order, entry `i` stripped as `StripEntry` says. A field that is not iterable raises `TypeError`, a non-string entry `AttributeError`. |
| Listing.StripEach | djazurino/djazurino/storages.py:205-206 | The comprehension succeeds exactly when every entry is a string. It then keeps the length and order, and entry `i` is the stripped entry `i`. Otherwise it raises `AttributeError`. |
| Listing.InterpretListdir | djazurino/djazurino/storages.py:194-211 | A network error, a non-200 status or an undecodable body gives `([], [])`. A 200 non-object reply raises. An empty path returns `folders` and `files` unchanged, defaulting to `[]`. For a non-empty path on a 200 object reply, it returns exactly when both fields strip without error, giving the two stripped lists. If `folders` raises, that exception leaves; otherwise a `files` exception does. |
| Listing.ListdirStripsEveryEntry | djazurino/djazurino/storages.py:203-208 | For a non-empty path and string-list fields, both lists keep their length and order. Each folder and file entry is stripped as `StripEntry` says. |
| Listing.ListdirOfSlashesDropsEverySlash | djazurino/djazurino/storages.py:203-206 | For a path of slashes only, no returned entry contains a `/`. |
| Degradation.NetworkErrorPolicy | djazurino/djazurino/storages.py:61-62 | On a transport error, save and open raise. Delete, exists, url, size, the times and listdir return `None`, `False`, `None`, `0`, `None` and `([], [])`. |
| Degradation.ErrorStatusPolicy | djazurino/djazurino/storages.py:84-89 | On a 4xx/5xx status other than 404, save and open raise with the status. The metadata methods and listdir return their defaults. Delete returns unless the body is non-object JSON. |
| Degradation.NotFoundPolicy | djazurino/djazurino/storages.py:81-82 | On a 404, open raises `FileNotFoundError`. Delete succeeds, exists is `False`, size is `0`, and url and the times are `None`. |
| Degradation.BestEffortNeverRaises | djazurino/djazurino/storages.py:98-211 | Delete, exists, url, size, the times and listdir return in five cases: a network error, a 404, another non-200 status without non-object JSON, an undecodable body, or an object whose `last_modified` is a string or falsy and whose `folders` and `files` are lists of strings. |
| Degradation.BestEffortRaisesOnNonObjectJson | djazurino/djazurino/storages.py:98-211 | A 200 reply whose JSON is not an object makes all of them raise `AttributeError`. |

## Left out

- The HTTP transport (`requests.get/post/delete`) and the timeouts taking effect are not modelled.
  The reply is an input, and every transport-level `RequestException` is `NetworkError`.
- The multipart body encoding is not modelled.
- The query-string encoding of the `folder` parameter is not modelled; parameters stay as name/value pairs.
- JSON decoding of the reply body is not modelled. The reply carries its decoded JSON, `None` when
  the body is not JSON.
- JSON floating-point numbers are left out; numbers are integers.
- Decode failures assume requests 2.27 or later. There, `response.json()` raises
  `requests.exceptions.JSONDecodeError`, which is a `RequestException`, so every handler catches it.
  With older requests, a non-JSON body would escape as `ValueError` from `_save`, `delete`,
  `exists`, `url`, `size` and `listdir`.
- `email.utils.parsedate_to_datetime` (the RFC 5322 section 3.3 date) is a function parameter,
  `DateParser = string -> Option<DateTime>`. `None` stands for the `ValueError` it raises on a
  string it cannot parse.
- That assumes Python 3.10 or later. Before 3.10 an unparseable string fails with `TypeError` instead,
  which `get_created_time` does not catch.
- The Django settings lookup is not modelled. `Storage.Settings` is a record passed to the
  constructor, and a setting that is not defined is `None`.
- `Storage.NewStorage`: a base-URL or folder setting defined as `None` is not modelled; the model
  treats it as undefined and uses the default. The source would use `None` itself, so uploads
  would go to `None/upload` and requests would drop the `None` folder field. An `api_token`
  setting of `None` needs no such case, because `None` and an undefined token both mean no header.
- Names containing lone surrogates are left out. Python's `quote` would raise `UnicodeEncodeError`
  for them, and a Dafny `char` cannot hold them.
- The exact text of the exception messages (`str(e)`, the f-strings) is not modelled. The
  exception carries its cause (`RequestError`) or the gateway's `message` value instead.
- `_open`'s `mode` argument is left out; the source ignores it.
- The returned `ContentFile` is reduced to its name and bytes.
- `exists`, `url` and `size` return the raw JSON value of the field, as the source does. No
  coercion to `bool`/`str`/`int` is modelled because the source performs none.
- Duplicate-name avoidance on save is left out. It belongs to Django's base `Storage.save` and
  `get_available_name`, which are not part of this model.

=== FILE: degradation.dfy ===
/**
 * The error policy across the storage methods: uploads and downloads fail
 * loudly, every other method falls back to a default. The fallback covers
 * transport errors, error statuses and undecodable bodies, but not a JSON
 * body of an unexpected shape, which still raises out of the method.
 */
module Degradation {
  import opened Optional
  import opened Json
  import opened Gateway
  import opened Errors
  import opened Storage
  import opened Listing

  /** A transport failure: `_save` and `_open` raise, every other method returns its default. */
  lemma NetworkErrorPolicy(name: string, path: string, parse: DateParser)
    ensures InterpretSave(name, NetworkError) == Raises(UploadRequestFailed(ConnectionError))
    ensures InterpretOpen(name, NetworkError) == Raises(DownloadFailed(ConnectionError))
    ensures InterpretDelete(NetworkError) == Returns(())
    ensures InterpretExists(NetworkError) == Returns(JBool(false))
    ensures InterpretUrl(NetworkError) == Returns(JNull)
    ensures InterpretSize(NetworkError) == Returns(JNumber(0))
    ensures InterpretCreatedTime(NetworkError, parse) == Returns(None)
    ensures InterpretModifiedTime(NetworkError, parse) == Returns(None)
    ensures InterpretListdir(path, NetworkError) == Returns(NoEntries)
  {
  }

  /**
   * An error status (4xx or 5xx) other than 404: `_save` and `_open` raise
   * with the status; the metadata methods return their defaults; `delete`
   * returns unless the error body is JSON that is not an object.
   */
  lemma ErrorStatusPolicy(name: string, path: string, reply: Response, parse: DateParser)
    requires reply.Http? && RaisesForStatus(reply.status) && reply.status != 404
    ensures InterpretSave(name, reply) == Raises(UploadRequestFailed(HttpError(reply.status)))
    ensures InterpretOpen(name, reply) == Raises(DownloadFailed(HttpError(reply.status)))
    ensures InterpretDelete(reply).Returns? <==> reply.json.None? || reply.json.value.JObject?
    ensures InterpretExists(reply) == Returns(JBool(false))
    ensures InterpretUrl(reply) == Returns(JNull)
    ensures InterpretSize(reply) == Returns(JNumber(0))
    ensures InterpretCreatedTime(reply, parse) == Returns(None)
    ensures InterpretListdir(path, reply) == Returns(NoEntries)
  {
  }

  /** A missing blob: `_open` raises `FileNotFoundError`, `delete` counts it as done, the rest report absence. */
  lemma NotFoundPolicy(name: string, reply: Response, parse: DateParser)
    requires reply.Http? && reply.status == 404
    ensures InterpretOpen(name, reply) == Raises(FileNotFound(name))
    ensures InterpretDelete(reply) == Returns(())
    ensures InterpretExists(reply) == Returns(JBool(false))
    ensures InterpretSize(reply) == Returns(JNumber(0))
    ensures InterpretUrl(reply) == Returns(JNull)
    ensures InterpretCreatedTime(reply, parse) == Returns(None)
  {
  }

  /**
   * The reply is an object whose fields have the types the methods expect:
   * `last_modified` a string or falsy, `folders` and `files` lists of strings.
   */
  predicate WellTypedFields(reply: Response) {
    reply.Http? && reply.json.Some? && reply.json.value.JObject? &&
    var members := reply.json.value.members;
    var lastModified := Lookup(members, "last_modified", JNull);
    && (lastModified.JString? || !Truthy(lastModified))
    && IsStringList(Lookup(members, "folders", JArray([])))
    && IsStringList(Lookup(members, "files", JArray([])))
  }

  /**
   * The best-effort methods do not raise on a transport error, on a 404, on
   * another status but 200 whose body is not non-object JSON, on an
   * undecodable body, or on a well-typed object.
   */
  lemma BestEffortNeverRaises(path: string, reply: Response, parse: DateParser)
    requires || reply.NetworkError?
             || reply.status == 404
             || (reply.status != 200 && (reply.json.None? || reply.json.value.JObject?))
             || reply.json.None?
             || WellTypedFields(reply)
    ensures InterpretDelete(reply).Returns?
    ensures InterpretExists(reply).Returns?
    ensures InterpretUrl(reply).Returns?
    ensures InterpretSize(reply).Returns?
    ensures InterpretCreatedTime(reply, parse).Returns?
    ensures InterpretModifiedTime(reply, parse).Returns?
    ensures InterpretListdir(path, reply).Returns?
  {
    if WellTypedFields(reply) && reply.status == 200 && path != "" {
      ListdirStripsEveryEntry(path, reply);
    }
  }

  /**
   * A 200 reply whose JSON is not an object makes every best-effort method
   * raise `AttributeError` from `.get`. The other raising replies are
   * per method: a truthy non-string `last_modified` for the times, a field
   * that is not iterable or an entry that is not a string for `listdir`, and
   * non-object JSON on any status but 404 for `delete`.
   */
  lemma BestEffortRaisesOnNonObjectJson(path: string, reply: Response, parse: DateParser)
    requires reply.Http? && reply.status == 200 && reply.json.Some? && !reply.json.value.JObject?
    ensures InterpretDelete(reply) == Raises(AttributeError)
    ensures InterpretExists(reply) == Raises(AttributeError)
    ensures InterpretUrl(reply) == Raises(AttributeError)
    ensures InterpretSize(reply) == Raises(AttributeError)
    ensures InterpretCreatedTime(reply, parse) == Raises(AttributeError)
    ensures InterpretListdir(path, reply) == Raises(AttributeError)
  {
  }
}

=== FILE: errors.dfy ===
/**
 * A storage method either returns a value or raises a Python exception; the
 * exceptions that can leave the backend are listed here.
 */
module Errors {
  import opened Json
  import opened Gateway

  datatype Exception =
    | UploadFailed(message: Json)   // `Exception("Upload failed: ...")`, the gateway refused the upload
    | UploadRequestFailed(cause: RequestError)   // `Exception("Upload request failed: ...")`
    | FileNotFound(name: string)   // `FileNotFoundError`, only from `_open`
    | DownloadFailed(cause: RequestError)   // `Exception("Download failed: ...")`
    | AttributeError   // a method called on a JSON value that lacks it (`.get`, `.replace`, `.split`)
    | TypeError   // iterating a JSON value that is not iterable

  datatype Outcome<+T> = Returns(value: T) | Raises(exception: Exception)
}

=== FILE: gateway.dfy ===
/**
 * What crosses the wire between the storage backend and the blob gateway.
 * The transport itself (`requests`) is not modelled: a request is a value the
 * backend builds, and the reply is an input to the code that interprets it.
 */
module Gateway {
  import opened Optional
  import opened Utf8
  import opened Json

  datatype Method = HttpGet | HttpPost | HttpDelete

  /** The `file` part of a multipart upload: `(filename, content, content type)`. */
  datatype FilePart = FilePart(filename: string, content: seq<Byte>, contentType: Option<string>)

  datatype Request = Request(
    verb: Method,
    url: string,
    params: seq<(string, string)>,   // query parameters
    headers: map<string, string>,
    form: seq<(string, string)>,     // multipart form fields besides the file
    file: Option<FilePart>,
    timeout: nat)                    // seconds

  /**
   * What the gateway answered. `NetworkError` is every transport-level
   * `requests.exceptions.RequestException` (no connection, timeout, ...).
   * `json` is the decoding of `content`, `None` when it is not valid JSON.
   */
  datatype Response =
    | NetworkError
    | Http(status: int, content: seq<Byte>, json: Option<Json>)

  /** The `RequestException` a handler sees, which the upload and download messages carry. */
  datatype RequestError =
    | ConnectionError   // the transport failed
    | HttpError(status: int)   // raised by `raise_for_status`
    | InvalidJson   // raised by `response.json()`

  /** `Response.raise_for_status` raises exactly for client (4xx) and server (5xx) errors. */
  predicate RaisesForStatus(status: int) {
    400 <= status < 600
  }
}

=== FILE: json.dfy ===
/**
 * The decoded JSON a gateway reply carries, as Python's `json` module hands
 * it over. An object keeps its members in document order: looking a key up
 * (`dict.get`) finds the LAST member with that key, and iterating the object
 * yields each key once, at the place of its FIRST occurrence.
 */
module Json {

  datatype Json =
    | JNull
    | JBool(b: bool)
    | JNumber(n: int)
    | JString(s: string)
    | JArray(items: seq<Json>)
    | JObject(members: seq<(string, Json)>)

  /** Python truthiness of the value `json.loads` returns. */
  predicate Truthy(j: Json) {
    match j
    case JNull => false
    case JBool(b) => b
    case JNumber(n) => n != 0
    case JString(s) => s != ""
    case JArray(items) => items != []
    case JObject(members) => members != []
  }

  /** Member `i` is the last one with this key. */
  predicate IsLastKey(members: seq<(string, Json)>, i: nat, key: string)
    requires i < |members|
  {
    members[i].0 == key && forall j :: i < j < |members| ==> members[j].0 != key
  }

  /** `dict.get(key, default)` on a decoded object. */
  function Lookup(members: seq<(string, Json)>, key: string, default: Json): (v: Json)
    ensures (forall i :: 0 <= i < |members| ==> members[i].0 != key) ==> v == default
    ensures forall i :: 0 <= i < |members| && IsLastKey(members, i, key) ==> v == members[i].1
  {
    if |members| == 0 then default
    else if members[|members| - 1].0 == key then members[|members| - 1].1
    else
      var front := members[..|members| - 1];
      assert forall i :: 0 <= i < |front| ==> front[i] == members[i];
      Lookup(front, key, default)
  }

  /** The index of the first member with this key, or `|members|` when there is none. */
  function FirstIndex(members: seq<(string, Json)>, key: string): (i: nat)
    ensures i <= |members|
    ensures i < |members| ==> members[i].0 == key
    ensures forall j :: 0 <= j < i ==> members[j].0 != key
  {
    if |members| == 0 then 0
    else if members[0].0 == key then 0
    else 1 + FirstIndex(members[1..], key)
  }

  /** Appending a member does not move the first occurrence of a key already present. */
  lemma FirstIndexOfFront(members: seq<(string, Json)>)
    requires |members| > 0
    ensures forall key :: FirstIndex(members[..|members| - 1], key) < |members| - 1 ==>
              FirstIndex(members, key) == FirstIndex(members[..|members| - 1], key)
  {
    var front := members[..|members| - 1];
    forall key | FirstIndex(front, key) < |front|
      ensures FirstIndex(members, key) == FirstIndex(front, key)
    {
      var i := FirstIndex(front, key);
      assert front[i] == members[i];
      assert forall j :: 0 <= j < i ==> members[j] == front[j];
    }
  }

  /** `ks` lists exactly the keys of `members`. */
  ghost predicate ListsKeys(members: seq<(string, Json)>, ks: seq<string>) {
    forall k :: k in ks <==> exists i :: 0 <= i < |members| && members[i].0 == k
  }

  /** `ks` names no key twice. */
  predicate Distinct(ks: seq<string>) {
    forall i, j :: 0 <= i < j < |ks| ==> ks[i] != ks[j]
  }

  /** The keys of `ks` appear in `members` in this order. */
  predicate InFirstOccurrenceOrder(members: seq<(string, Json)>, ks: seq<string>) {
    forall i, j :: 0 <= i < j < |ks| ==> FirstIndex(members, ks[i]) < FirstIndex(members, ks[j])
  }

  /** Appending the last member's key, when it is new, keeps `ks` listing the keys exactly once. */
  lemma KeysStepListing(members: seq<(string, Json)>, ks: seq<string>)
    requires |members| > 0 && ListsKeys(members[..|members| - 1], ks) && Distinct(ks)
    ensures var k := members[|members| - 1].0;
            var r := if k in ks then ks else ks + [k];
            ListsKeys(members, r) && Distinct(r)
  {
    var front := members[..|members| - 1];
    var k := members[|members| - 1].0;
    var r := if k in ks then ks else ks + [k];
    forall x ensures x in r <==> exists i :: 0 <= i < |members| && members[i].0 == x {
      if x in ks {
        var m :| 0 <= m < |front| && front[m].0 == x;
        assert members[m] == front[m];
      }
      if exists i :: 0 <= i < |members| && members[i].0 == x {
        var i :| 0 <= i < |members| && members[i].0 == x;
        if i < |front| {
          assert front[i] == members[i];
        }
      }
    }
  }

  /** Appending the last member's key, when it is new, keeps `ks` in first-occurrence order. */
  lemma KeysStepOrder(members: seq<(string, Json)>, ks: seq<string>)
    requires |members| > 0 && ListsKeys(members[..|members| - 1], ks)
    requires InFirstOccurrenceOrder(members[..|members| - 1], ks)
    ensures var k := members[|members| - 1].0;
            InFirstOccurrenceOrder(members, if k in ks then ks else ks + [k])
  {
    var front := members[..|members| - 1];
    var k := members[|members| - 1].0;
    FirstIndexOfFront(members);
    forall i | 0 <= i < |ks|
      ensures FirstIndex(members, ks[i]) == FirstIndex(front, ks[i]) < |front|
    {
      assert ks[i] in ks;
      var m :| 0 <= m < |front| && front[m].0 == ks[i];
    }
    if k in ks {
      forall i, j | 0 <= i < j < |ks| ensures FirstIndex(members, ks[i]) < FirstIndex(members, ks[j]) {
        assert FirstIndex(front, ks[i]) < FirstIndex(front, ks[j]);
      }
    } else {
      FirstIndexOfNewKey(members);
      var r := ks + [k];
      forall i, j | 0 <= i < j < |r| ensures FirstIndex(members, r[i]) < FirstIndex(members, r[j]) {
        assert r[i] == ks[i];
        if j < |ks| {
          assert r[j] == ks[j];
          assert FirstIndex(front, ks[i]) < FirstIndex(front, ks[j]);
        } else {
          assert r[j] == k;
        }
      }
    }
  }

  /** A key that first appears in the last member has that member's index as its first index. */
  lemma FirstIndexOfNewKey(members: seq<(string, Json)>)
    requires |members| > 0
    requires forall m :: 0 <= m < |members| - 1 ==> members[m].0 != members[|members| - 1].0
    ensures FirstIndex(members, members[|members| - 1].0) == |members| - 1
  {
  }

  /**
   * The keys of a decoded object in iteration order: each once, where it
   * first appears, so keys come in the order of their first occurrences.
   */
  function Keys(members: seq<(string, Json)>): (ks: seq<string>)
    ensures ListsKeys(members, ks)
    ensures Distinct(ks)
    ensures InFirstOccurrenceOrder(members, ks)
  {
    if |members| == 0 then []
    else
      var ks := Keys(members[..|members| - 1]);
      KeysStepListing(members, ks);
      KeysStepOrder(members, ks);
      var k := members[|members| - 1].0;
      if k in ks then ks else ks + [k]
  }
}

=== FILE: listing.dfy ===
/**
 * `listdir`: the gateway answers with `folders` and `files`; when a path was
 * queried, the path (normalised to end in exactly one `/`) is removed from
 * every entry with `str.replace`, which removes EVERY occurrence, not only a
 * leading one, and folder entries also lose their trailing slashes.
 */
module Listing {
  import opened Optional
  import opened Json
  import opened Gateway
  import opened Errors

  /** `s.rstrip(c)`: `s` without its trailing run of `c`. */
  function RStrip(s: string, c: char): (r: string)
    ensures |r| <= |s| && r == s[..|r|]
    ensures |r| > 0 ==> r[|r| - 1] != c
    ensures forall i :: |r| <= i < |s| ==> s[i] == c
  {
    if |s| > 0 && s[|s| - 1] == c then RStrip(s[..|s| - 1], c) else s
  }

  /** `path.rstrip('/') + '/'`: the prefix removed from the entries of a listing. */
  function ListingPrefix(path: string): (p: string)
    ensures |p| >= 1 && p[|p| - 1] == '/'
    ensures |p| >= 2 ==> p[|p| - 2] != '/'
    ensures |p| - 1 <= |path|
    ensures p[..|p| - 1] == path[..|p| - 1]
    ensures forall i :: |p| - 1 <= i < |path| ==> path[i] == '/'
  {
    RStrip(path, '/') + "/"
  }

  /** Whether `p` occurs somewhere in `s`. */
  predicate Contains(s: string, p: string)
    decreases |s|
  {
    |p| <= |s| && (s[..|p|] == p || Contains(s[1..], p))
  }

  /**
   * `s.replace(p, '')`: scanning left to right, every non-overlapping
   * occurrence of `p` is cut out. An empty `p` leaves `s` as it is.
   */
  function RemoveAll(s: string, p: string): (r: string)
    ensures |r| <= |s|
    ensures |p| > 0 && !Contains(s, p) ==> r == s
    decreases |s|
  {
    if |p| == 0 || |s| < |p| then s
    else if s[..|p|] == p then RemoveAll(s[|p|..], p)
    else [s[0]] + RemoveAll(s[1..], p)
  }

  /** Without an occurrence of `p` at the front of `s`, the first character is kept. */
  lemma RemoveAllKeep(s: string, t: string, p: string)
    requires 0 < |p| <= |s| && s[..|p|] != p && t == s[1..]
    ensures RemoveAll(s, p) == [s[0]] + RemoveAll(t, p)
  {
  }

  /** Re-attaching the first character of `a` in front of `a[1..] + x`. */
  lemma ConsAppend(a: string, x: string)
    requires |a| > 0
    ensures [a[0]] + (a[1..] + x) == a + x
  {
    assert [a[0]] + a[1..] == a;
  }

  /**
   * When `a + p` is the shortest prefix of `s == a + p + b` ending in an
   * occurrence of `p`, the first character of a non-empty `a` is kept and
   * the rest of `a` is again such a prefix.
   */
  lemma FirstOccurrenceStep(a: string, p: string, b: string)
    requires |a| > 0 && |p| > 0 && !Contains(a + p[..|p| - 1], p)
    ensures |p| <= |a + p + b| && (a + p + b)[..|p|] != p
    ensures (a + p + b)[0] == a[0] && (a + p + b)[1..] == a[1..] + p + b
    ensures !Contains(a[1..] + p[..|p| - 1], p)
  {
    var w := a + p[..|p| - 1];
    NoOccurrenceAtFront(w, p);
    PrefixBeforeLastChar(a, p, b);
    TailOfAppend(a, p[..|p| - 1]);
    TailOfAppend(a + p, b);
    TailOfAppend(a, p);
  }

  /** An absent pattern neither starts a string at least as long as it nor occurs in its tail. */
  lemma NoOccurrenceAtFront(w: string, p: string)
    requires |p| <= |w| && !Contains(w, p)
    ensures w[..|p|] != p && !Contains(w[1..], p)
  {
  }

  /** The first `|p|` characters of `a + p + b` and of `a + p[..|p| - 1]` agree when `a` is non-empty. */
  lemma PrefixBeforeLastChar(a: string, p: string, b: string)
    requires |a| > 0 && |p| > 0
    ensures |p| <= |a + p[..|p| - 1]|
    ensures (a + p[..|p| - 1])[..|p|] == (a + p + b)[..|p|]
  {
    var u, v := (a + p[..|p| - 1])[..|p|], (a + p + b)[..|p|];
    forall k | 0 <= k < |p| ensures u[k] == v[k] {
      if k >= |a| {
        assert u[k] == p[..|p| - 1][k - |a|];
      }
    }
  }

  /** The head and tail of `a + x` for a non-empty `a`. */
  lemma TailOfAppend(a: string, x: string)
    requires |a| > 0
    ensures (a + x)[0] == a[0] && (a + x)[1..] == a[1..] + x
  {
  }

  /**
   * `replace` is a single left-to-right pass: everything before the first
   * occurrence of `p` is kept, that occurrence is cut, and the scan resumes
   * right after it, never looking back at what the cut brought together.
   * `a + p` ends at the first occurrence when no occurrence lies wholly
   * inside `a + p[..|p| - 1]`.
   */
  lemma {:induction false} RemoveAllFirstOccurrence(a: string, p: string, b: string)
    requires |p| > 0 && !Contains(a + p[..|p| - 1], p)
    ensures RemoveAll(a + p + b, p) == a + RemoveAll(b, p)
    decreases |a|
  {
    if |a| == 0 {
      assert a + p + b == p + b;
      RemoveAllLeading(p, b);
    } else {
      var s, t := a + p + b, a[1..] + p + b;
      FirstOccurrenceStep(a, p, b);
      RemoveAllKeep(s, t, p);
      RemoveAllFirstOccurrence(a[1..], p, b);
      ConsAppend(a, RemoveAll(b, p));
    }
  }

  /**
   * One pass only: cutting `a/` out of `aa//` joins an `a` and a `/` into a
   * new `a/`, and that one stays.
   */
  lemma RemoveAllSinglePass()
    ensures RemoveAll("aa//", "a/") == "a/"
  {
    assert "aa//" == "a" + "a/" + "/";
    var w := "a" + "a/"[..1];
    assert !Contains(w, "a/") by {
      assert w[..2][1] == 'a';
      assert |w[1..]| == 1;
    }
    RemoveAllFirstOccurrence("a", "a/", "/");
  }

  /** What one entry becomes: files lose every occurrence of the prefix, folders also their trailing `/`. */
  function StripEntry(entry: string, prefix: string, isFolder: bool): (r: string)
    ensures !isFolder ==> r == RemoveAll(entry, prefix)
    ensures isFolder ==>
              var stripped := RemoveAll(entry, prefix);
              && |r| <= |stripped| && r == stripped[..|r|]
              && (|r| > 0 ==> r[|r| - 1] != '/')
              && forall i :: |r| <= i < |stripped| ==> stripped[i] == '/'
  {
    var stripped := RemoveAll(entry, prefix);
    if isFolder then RStrip(stripped, '/') else stripped
  }

  /**
   * Python's iteration over a decoded JSON value: a list yields its items, a
   * string its characters, an object its keys; anything else is not iterable.
   */
  function Iterate(j: Json): (r: Outcome<seq<Json>>)
    ensures r.Raises? <==> j.JNull? || j.JBool? || j.JNumber?
    ensures r.Raises? ==> r.exception == TypeError
    ensures j.JArray? ==> r == Returns(j.items)
    ensures j.JString? ==>
              && r.Returns? && |r.value| == |j.s|
              && forall i :: 0 <= i < |j.s| ==> r.value[i] == JString([j.s[i]])
    ensures j.JObject? ==>
              && r.Returns? && |r.value| == |Keys(j.members)|
              && forall i :: 0 <= i < |r.value| ==> r.value[i] == JString(Keys(j.members)[i])
  {
    match j
    case JArray(items) => Returns(items)
    case JString(s) => Returns(seq(|s|, i requires 0 <= i < |s| => JString([s[i]])))
    case JObject(members) =>
      var ks := Keys(members);
      Returns(seq(|ks|, i requires 0 <= i < |ks| => JString(ks[i])))
    case _ => Raises(TypeError)
  }

  /** The list comprehension over the entries: the first non-string entry raises. */
  function StripEach(items: seq<Json>, prefix: string, isFolder: bool): (r: Outcome<seq<Json>>)
    ensures r.Returns? <==> forall i :: 0 <= i < |items| ==> items[i].JString?
    ensures r.Raises? ==> r.exception == AttributeError
    ensures r.Returns? ==>
              && |r.value| == |items|
              && forall i :: 0 <= i < |items| ==> r.value[i] == JString(StripEntry(items[i].s, prefix, isFolder))
  {
    if |items| == 0 then Returns([])
    else if !items[0].JString? then Raises(AttributeError)
    else
      match StripEach(items[1..], prefix, isFolder)
      case Raises(e) => Raises(e)
      case Returns(rest) => Returns([JString(StripEntry(items[0].s, prefix, isFolder))] + rest)
  }

  /** One of the two lists, with the prefix stripped from its entries. */
  function StripListing(value: Json, prefix: string, isFolder: bool): (r: Outcome<Json>)
    ensures r.Returns? <==>
              && Iterate(value).Returns?
              && forall i :: 0 <= i < |Iterate(value).value| ==> Iterate(value).value[i].JString?
    ensures r.Returns? ==>
              var items := Iterate(value).value;
              && r.value.JArray? && |r.value.items| == |items|
              && forall i :: 0 <= i < |items| ==> r.value.items[i] == JString(StripEntry(items[i].s, prefix, isFolder))
  {
    match Iterate(value)
    case Raises(e) => Raises(e)
    case Returns(items) =>
      match StripEach(items, prefix, isFolder)
      case Raises(e) => Raises(e)
      case Returns(stripped) => Returns(JArray(stripped))
  }

  const NoEntries: (Json, Json) := (JArray([]), JArray([]))

  /** `listdir(path)` given the gateway's reply: `(folders, files)`. */
  function InterpretListdir(path: string, reply: Response): (r: Outcome<(Json, Json)>)
    ensures (reply.NetworkError? || reply.status != 200 || reply.json.None?) ==> r == Returns(NoEntries)
    ensures reply.Http? && reply.status == 200 && reply.json.Some? && !reply.json.value.JObject? ==>
              r == Raises(AttributeError)
    ensures reply.Http? && reply.status == 200 && reply.json.Some? && reply.json.value.JObject? && path == "" ==>
              r == Returns((Lookup(reply.json.value.members, "folders", JArray([])),
                            Lookup(reply.json.value.members, "files", JArray([]))))
    ensures path != "" && r.Returns? ==> r.value.0.JArray? && r.value.1.JArray?
    ensures path != "" && reply.Http? && reply.status == 200 && reply.json.Some? && reply.json.value.JObject? ==>
              var members := reply.json.value.members;
              var folders := StripListing(Lookup(members, "folders", JArray([])), ListingPrefix(path), true);
              var files := StripListing(Lookup(members, "files", JArray([])), ListingPrefix(path), false);
              && (r.Returns? <==> folders.Returns? && files.Returns?)
              && (folders.Raises? ==> r == Raises(folders.exception))
              && (folders.Returns? && files.Raises? ==> r == Raises(files.exception))
              && (r.Returns? ==> r.value == (folders.value, files.value))
  {
    match reply
    case NetworkError => Returns(NoEntries)
    case Http(status, _, json) =>
      if status != 200 then Returns(NoEntries)
      else
        match json
        case None => Returns(NoEntries)
        case Some(JObject(members)) =>
          var folders := Lookup(members, "folders", JArray([]));
          var files := Lookup(members, "files", JArray([]));
          if path == "" then Returns((folders, files))
          else
            var prefix := ListingPrefix(path);
            (match StripListing(folders, prefix, true)
             case Raises(e) => Raises(e)
             case Returns(strippedFolders) =>
               match StripListing(files, prefix, false)
               case Raises(e) => Raises(e)
               case Returns(strippedFiles) => Returns((strippedFolders, strippedFiles)))
        case Some(_) => Raises(AttributeError)
  }

  // ---------------------------------------------------------------------------
  // Properties of the prefix stripping
  // ---------------------------------------------------------------------------

  /** Trailing slashes on the queried path make no difference to the prefix. */
  lemma ListingPrefixIgnoresTrailingSlash(path: string)
    ensures ListingPrefix(path + "/") == ListingPrefix(path)
  {
    assert (path + "/")[..|path|] == path;
  }

  /** A path with no trailing slash is used as is, followed by one `/`. */
  lemma ListingPrefixOfPlainPath(path: string)
    requires |path| > 0 && path[|path| - 1] != '/'
    ensures ListingPrefix(path) == path + "/"
  {
  }

  /** A path made only of slashes normalises to the prefix `/`. */
  lemma ListingPrefixOfSlashes(path: string)
    requires forall i :: 0 <= i < |path| ==> path[i] == '/'
    ensures ListingPrefix(path) == "/"
  {
  }

  /** An occurrence of the prefix at the front is cut, and scanning continues after it. */
  lemma RemoveAllLeading(p: string, s: string)
    requires |p| > 0
    ensures RemoveAll(p + s, p) == RemoveAll(s, p)
  {
    assert (p + s)[..|p|] == p;
    assert (p + s)[|p|..] == s;
  }

  /**
   * An entry lying directly under the queried prefix comes back relative to
   * it, provided the rest of the entry does not repeat the prefix.
   */
  lemma StripEntryUnderPrefix(prefix: string, rest: string)
    requires |prefix| > 0
    requires !Contains(rest, prefix)
    ensures StripEntry(prefix + rest, prefix, false) == rest
    ensures StripEntry(prefix + rest, prefix, true) == RStrip(rest, '/')
  {
    RemoveAllLeading(prefix, rest);
  }

  /** The entry with every `c` deleted: the reference meaning of removing a one-character pattern. */
  function Without(s: string, c: char): (r: string)
    ensures c !in r
    ensures |r| <= |s|
  {
    if |s| == 0 then [] else (if s[0] == c then [] else [s[0]]) + Without(s[1..], c)
  }

  /** Removing a one-character pattern deletes exactly the occurrences of that character. */
  lemma {:induction false} RemoveAllOneChar(s: string, c: char)
    ensures RemoveAll(s, [c]) == Without(s, c)
  {
    if |s| > 0 {
      RemoveAllOneChar(s[1..], c);
      assert s[..1] == [s[0]];
    }
  }

  /**
   * Occurrences of the prefix INSIDE an entry are removed too: under the path
   * `docs` (prefix `docs/`, see `ListingPrefixOfPlainPath`), the entry
   * `docs/a/docs/b.txt` is reported as `a/b.txt`, not `a/docs/b.txt`.
   */
  lemma RemoveAllInnerOccurrence()
    ensures StripEntry("docs/a/docs/b.txt", "docs/", false) == "a/b.txt"
  {
    var p, rest := "docs/", "a/docs/b.txt";
    assert "docs/a/docs/b.txt" == p + rest;
    RemoveAllLeading(p, rest);
    RemoveAllInnerOccurrenceTail();
  }

  /** The step of `RemoveAllInnerOccurrence` after the leading prefix is gone. */
  lemma RemoveAllInnerOccurrenceTail()
    ensures RemoveAll("a/docs/b.txt", "docs/") == "a/b.txt"
  {
    var p, s1, s2, s3 := "docs/", "a/docs/b.txt", "/docs/b.txt", "b.txt";
    assert RemoveAll(s3, p) == s3 by {
      assert s3[0] != p[0];
      assert !Contains(s3, p);
    }
    assert RemoveAll(s2, p) == "/" + s3 by {
      assert s2[0] == '/' && s2[1..] == p + s3;
      RemoveAllSkip(s2, p);
      RemoveAllLeading(p, s3);
    }
    assert s1[0] == 'a' && s1[1..] == s2;
    RemoveAllSkip(s1, p);
  }

  /** Where the pattern does not start the text, the first character is kept. */
  lemma RemoveAllSkip(s: string, p: string)
    requires 0 < |p| <= |s| && s[0] != p[0]
    ensures RemoveAll(s, p) == [s[0]] + RemoveAll(s[1..], p)
  {
    assert s[..|p|][0] != p[0];
  }

  predicate IsStringList(j: Json) {
    j.JArray? && forall i :: 0 <= i < |j.items| ==> j.items[i].JString?
  }

  /**
   * On a 200 reply to a non-empty path whose `folders` and `files` are lists
   * of strings, both lists keep their length and order, entry by entry.
   */
  lemma ListdirStripsEveryEntry(path: string, reply: Response)
    requires path != ""
    ensures (&& reply.Http? && reply.status == 200 && reply.json.Some? && reply.json.value.JObject?
             && IsStringList(Lookup(reply.json.value.members, "folders", JArray([])))
             && IsStringList(Lookup(reply.json.value.members, "files", JArray([])))) ==>
            var folders := Lookup(reply.json.value.members, "folders", JArray([]));
            var files := Lookup(reply.json.value.members, "files", JArray([]));
            && InterpretListdir(path, reply).Returns?
            && var (fs, gs) := InterpretListdir(path, reply).value;
               && fs.JArray? && |fs.items| == |folders.items|
               && (forall i :: 0 <= i < |folders.items| ==>
                     fs.items[i] == JString(StripEntry(folders.items[i].s, ListingPrefix(path), true)))
               && gs.JArray? && |gs.items| == |files.items|
               && (forall i :: 0 <= i < |files.items| ==>
                     gs.items[i] == JString(StripEntry(files.items[i].s, ListingPrefix(path), false)))
  {
    if reply.Http? && reply.status == 200 && reply.json.Some? && reply.json.value.JObject? {
      var folders := Lookup(reply.json.value.members, "folders", JArray([]));
      var files := Lookup(reply.json.value.members, "files", JArray([]));
      if IsStringList(folders) && IsStringList(files) {
        var prefix := ListingPrefix(path);
        assert Iterate(folders) == Returns(folders.items);
        assert Iterate(files) == Returns(files.items);
        var fs := StripListing(folders, prefix, true);
        var gs := StripListing(files, prefix, false);
        assert fs.Returns? && gs.Returns?;
        assert InterpretListdir(path, reply) == Returns((fs.value, gs.value));
      }
    }
  }

  /** Querying a path of slashes only turns the prefix into `/`, so every slash disappears from every entry. */
  lemma ListdirOfSlashesDropsEverySlash(path: string, reply: Response)
    requires path != "" && forall i :: 0 <= i < |path| ==> path[i] == '/'
    requires InterpretListdir(path, reply).Returns?
    ensures var (fs, gs) := InterpretListdir(path, reply).value;
            && (forall i :: 0 <= i < |fs.items| ==> fs.items[i].JString? && '/' !in fs.items[i].s)
            && (forall i :: 0 <= i < |gs.items| ==> gs.items[i].JString? && '/' !in gs.items[i].s)
  {
    ListingPrefixOfSlashes(path);
    if reply.Http? && reply.status == 200 && reply.json.Some? && reply.json.value.JObject? {
      var members := reply.json.value.members;
      var folders := Lookup(members, "folders", JArray([]));
      var files := Lookup(members, "files", JArray([]));
      var fs := StripListing(folders, "/", true);
      var gs := StripListing(files, "/", false);
      assert InterpretListdir(path, reply) == Returns((fs.value, gs.value));
      forall i | 0 <= i < |fs.value.items|
        ensures fs.value.items[i].JString? && '/' !in fs.value.items[i].s
      {
        NoSlashAfterStrippingSlash(Iterate(folders).value[i].s);
      }
      forall i | 0 <= i < |gs.value.items|
        ensures gs.value.items[i].JString? && '/' !in gs.value.items[i].s
      {
        NoSlashAfterStrippingSlash(Iterate(files).value[i].s);
      }
    }
  }

  lemma NoSlashAfterStrippingSlash(s: string)
    ensures '/' !in StripEntry(s, "/", true) && '/' !in StripEntry(s, "/", false)
  {
    RemoveAllOneChar(s, '/');
    var r := Without(s, '/');
    var t := RStrip(r, '/');
    assert forall i :: 0 <= i < |t| ==> t[i] == r[i];
  }
}

=== FILE: optional.dfy ===
/** Python's `None`, as an optional value. */
module Optional {

  datatype Option<+T> = None | Some(value: T)

  /** The value when there is one, else `fallback`: how `getattr(settings, name, fallback)` reads a setting. */
  function ValueOr<T>(o: Option<T>, fallback: T): T {
    if o.Some? then o.value else fallback
  }
}

=== FILE: percent_encoding.dfy ===
/**
 * `urllib.parse.quote(name, safe='')`: percent-encoding as section 2.1 of
 * RFC 3986 describes it. The name is encoded to UTF-8 and every byte outside
 * the unreserved set of section 2.3 (ALPHA, DIGIT, `-`, `.`, `_`, `~`) becomes
 * `%` followed by two upper-case hexadecimal digits. With `safe=''` even `/`
 * is escaped, so an encoded name is always a single path segment.
 */
module PercentEncoding {
  import opened Optional
  import opened Utf8

  predicate IsUnreserved(c: char) {
    || 'A' <= c <= 'Z'
    || 'a' <= c <= 'z'
    || '0' <= c <= '9'
    || c == '-' || c == '.' || c == '_' || c == '~'
  }

  predicate IsUpperHex(c: char) {
    '0' <= c <= '9' || 'A' <= c <= 'F'
  }

  predicate IsHex(c: char) {
    IsUpperHex(c) || 'a' <= c <= 'f'
  }

  function HexDigit(n: int): (c: char)
    requires 0 <= n < 16
    ensures IsUpperHex(c)
  {
    "0123456789ABCDEF"[n]
  }

  function HexValue(c: char): (n: int)
    requires IsHex(c)
    ensures 0 <= n < 16
  {
    if '0' <= c <= '9' then c as int - '0' as int
    else if 'A' <= c <= 'F' then c as int - 'A' as int + 10
    else c as int - 'a' as int + 10
  }

  lemma HexValueOfDigit(n: int)
    requires 0 <= n < 16
    ensures HexValue(HexDigit(n)) == n
  {
  }

  /** The segment alphabet: an unreserved character or a `%XX` triple, nothing else. */
  predicate IsEncodedSegment(s: string)
    decreases |s|
  {
    if |s| == 0 then true
    else if IsUnreserved(s[0]) then IsEncodedSegment(s[1..])
    else |s| >= 3 && s[0] == '%' && IsUpperHex(s[1]) && IsUpperHex(s[2]) && IsEncodedSegment(s[3..])
  }

  /** The text one byte becomes. */
  function QuoteByte(b: Byte): (piece: string)
    ensures IsUnreserved(b as char) ==> piece == [b as char]
    ensures !IsUnreserved(b as char) ==> |piece| == 3 && piece[0] == '%' && IsUpperHex(piece[1]) && IsUpperHex(piece[2])
    ensures !IsUnreserved(b as char) ==> HexValue(piece[1]) == b / 16 && HexValue(piece[2]) == b % 16
  {
    if IsUnreserved(b as char) then [b as char]
    else
      HexValueOfDigit(b / 16);
      HexValueOfDigit(b % 16);
      ['%', HexDigit(b / 16), HexDigit(b % 16)]
  }

  /** `urllib.parse.quote_from_bytes(bs, safe='')`. */
  function QuoteBytes(bs: seq<Byte>): (s: string)
    ensures IsEncodedSegment(s)
    ensures forall i :: 0 <= i < |s| ==> IsUnreserved(s[i]) || s[i] == '%' || IsUpperHex(s[i])
    ensures |bs| <= |s| <= 3 * |bs|
  {
    if |bs| == 0 then ""
    else
      var piece := QuoteByte(bs[0]);
      var rest := QuoteBytes(bs[1..]);
      assert (piece + rest)[|piece|..] == rest;
      piece + rest
  }

  /** `urllib.parse.quote(name, safe='')` on a text name. */
  function Quote(name: string): (s: string)
    ensures IsEncodedSegment(s)
    ensures '/' !in s
  {
    var s := QuoteBytes(Encode(name));
    assert forall i :: 0 <= i < |s| ==> s[i] != '/';
    s
  }

  /**
   * Reverses the encoding, yielding the bytes. Lower-case hex digits are also
   * accepted; any character outside the segment alphabet is refused.
   */
  function Unquote(s: string): (r: Option<seq<Byte>>)
    decreases |s|
  {
    if |s| == 0 then Some([])
    else if s[0] == '%' then
      if |s| >= 3 && IsHex(s[1]) && IsHex(s[2]) then
        match Unquote(s[3..])
        case None => None
        case Some(rest) => Some([HexValue(s[1]) * 16 + HexValue(s[2])] + rest)
      else None
    else if IsUnreserved(s[0]) then
      match Unquote(s[1..])
      case None => None
      case Some(rest) => Some([s[0] as int] + rest)
    else None
  }

  /** The name an encoded segment stands for, when it stands for one. */
  function DecodeSegment(s: string): Option<string> {
    match Unquote(s)
    case None => None
    case Some(bs) => Decode(bs)
  }

  /** Decoding reads the text of one byte back as that byte and carries on after it. */
  lemma UnquoteQuoteByte(b: Byte, rest: string, tail: seq<Byte>)
    requires Unquote(rest) == Some(tail)
    ensures Unquote(QuoteByte(b) + rest) == Some([b] + tail)
  {
    var piece := QuoteByte(b);
    var s := piece + rest;
    if IsUnreserved(b as char) {
      assert s[0] == b as char && s[1..] == rest;
    } else {
      assert s[0] == '%' && s[1] == piece[1] && s[2] == piece[2] && s[3..] == rest;
    }
  }

  /** Percent-decoding inverts percent-encoding on every byte string. */
  lemma {:induction false} UnquoteQuoteBytes(bs: seq<Byte>)
    ensures Unquote(QuoteBytes(bs)) == Some(bs)
  {
    if |bs| > 0 {
      UnquoteQuoteBytes(bs[1..]);
      UnquoteQuoteByte(bs[0], QuoteBytes(bs[1..]), bs[1..]);
      assert QuoteBytes(bs) == QuoteByte(bs[0]) + QuoteBytes(bs[1..]);
      assert [bs[0]] + bs[1..] == bs;
    }
  }

  /** Decoding the segment gives back the UTF-8 bytes of the name, and then the name itself. */
  lemma QuoteRoundTrip(name: string)
    ensures Unquote(Quote(name)) == Some(Encode(name))
    ensures DecodeSegment(Quote(name)) == Some(name)
  {
    UnquoteQuoteBytes(Encode(name));
    DecodeEncode(name);
  }

  /** Two names share an encoded segment only if they are the same name. */
  lemma QuoteInjective(a: string, b: string)
    requires Quote(a) == Quote(b)
    ensures a == b
  {
    QuoteRoundTrip(a);
    QuoteRoundTrip(b);
  }

  /** A name made only of unreserved characters is left exactly as it is. */
  lemma {:induction false} QuoteUnreservedUnchanged(name: string)
    requires forall i :: 0 <= i < |name| ==> IsUnreserved(name[i])
    ensures Quote(name) == name
  {
    EncodeAscii(name);
    QuoteBytesOfUnreserved(name, Encode(name));
  }

  /** Bytes are encoded one at a time, so encoding distributes over concatenation. */
  lemma {:induction false} QuoteBytesAppend(a: seq<Byte>, b: seq<Byte>)
    ensures QuoteBytes(a + b) == QuoteBytes(a) + QuoteBytes(b)
    decreases |a|
  {
    if |a| > 0 {
      assert (a + b)[0] == a[0];
      assert (a + b)[1..] == a[1..] + b;
      QuoteBytesAppend(a[1..], b);
    } else {
      assert a + b == b;
    }
  }

  /** A single byte is encoded as `QuoteByte` says, whatever surrounds it. */
  lemma QuoteBytesOne(b: Byte)
    ensures QuoteBytes([b]) == QuoteByte(b)
  {
    assert [b][1..] == [];
  }

  /** Names are encoded character by character. */
  lemma QuoteAppend(a: string, b: string)
    ensures Quote(a + b) == Quote(a) + Quote(b)
  {
    EncodeAppend(a, b);
    QuoteBytesAppend(Encode(a), Encode(b));
  }

  /**
   * An unreserved character stays literal wherever it stands in a name,
   * whatever the characters around it: `quote("a ")` is `a%20`.
   */
  lemma QuoteKeepsUnreserved(a: string, c: char, b: string)
    requires IsUnreserved(c)
    ensures Quote(a + [c] + b) == Quote(a) + [c] + Quote(b)
  {
    QuoteAppend(a + [c], b);
    QuoteAppend(a, [c]);
    QuoteUnreservedUnchanged([c]);
  }

  lemma {:induction false} QuoteBytesOfUnreserved(name: string, bs: seq<Byte>)
    requires forall i :: 0 <= i < |name| ==> IsUnreserved(name[i])
    requires |bs| == |name|
    requires forall i :: 0 <= i < |name| ==> bs[i] == name[i] as int
    ensures QuoteBytes(bs) == name
  {
    if |bs| > 0 {
      assert (bs[0] as char) == name[0];
      QuoteBytesOfUnreserved(name[1..], bs[1..]);
      assert [name[0]] + name[1..] == name;
    }
  }
}

=== FILE: storage.dfy ===
/**
 * The `AzureBlobStorage` Django storage backend: each storage method builds
 * one HTTP request to the blob gateway and interprets the reply. Both halves
 * are pure here; the reply is an input.
 */
module Storage {
  import opened Optional
  import opened Utf8
  import opened Json
  import opened Gateway
  import opened Errors
  import opened PercentEncoding

  // ---------------------------------------------------------------------------
  // Configuration
  // ---------------------------------------------------------------------------

  /** The Django settings the constructor falls back to; `None` is a setting that is not defined. */
  datatype Settings = Settings(apiBaseUrl: Option<string>, storageFolder: Option<string>, apiToken: Option<string>)

  datatype Config = Config(baseUrl: string, folder: string, apiToken: Option<string>)

  const DefaultBaseUrl := "http://localhost:4000/api"
  const DefaultFolder := "uploads"
  const OctetStream := "application/octet-stream"

  /** An argument counts when it was passed and is truthy, as in Python's `arg or fallback`. */
  predicate Given(arg: Option<string>) {
    arg.Some? && arg.value != ""
  }

  /** `AzureBlobStorage(base_url, folder, api_token)`. */
  function NewStorage(baseUrl: Option<string>, folder: Option<string>, apiToken: Option<string>, settings: Settings): (cfg: Config)
    ensures Given(baseUrl) ==> cfg.baseUrl == baseUrl.value
    ensures !Given(baseUrl) && settings.apiBaseUrl.Some? ==> cfg.baseUrl == settings.apiBaseUrl.value
    ensures !Given(baseUrl) && settings.apiBaseUrl.None? ==> cfg.baseUrl == DefaultBaseUrl
    ensures Given(folder) ==> cfg.folder == folder.value
    ensures !Given(folder) && settings.storageFolder.Some? ==> cfg.folder == settings.storageFolder.value
    ensures !Given(folder) && settings.storageFolder.None? ==> cfg.folder == DefaultFolder
    ensures Given(apiToken) ==> cfg.apiToken == apiToken
    ensures !Given(apiToken) ==> cfg.apiToken == settings.apiToken
  {
    Config(
      if Given(baseUrl) then baseUrl.value else ValueOr(settings.apiBaseUrl, DefaultBaseUrl),
      if Given(folder) then folder.value else ValueOr(settings.storageFolder, DefaultFolder),
      if Given(apiToken) then apiToken else settings.apiToken)
  }

  /** `_get_headers`: a bearer `Authorization` header exactly when a truthy token is configured. */
  function AuthHeaders(cfg: Config): (h: map<string, string>)
    ensures "Authorization" in h <==> Given(cfg.apiToken)
    ensures h.Keys <= {"Authorization"}
    ensures "Authorization" in h ==> h["Authorization"] == "Bearer " + cfg.apiToken.value
  {
    if Given(cfg.apiToken) then map["Authorization" := "Bearer " + cfg.apiToken.value] else map[]
  }

  // ---------------------------------------------------------------------------
  // Request building
  // ---------------------------------------------------------------------------

  /** Whether the uploaded object has a `content_type` attribute, and its value (possibly `None`). */
  datatype ContentTypeAttr = NoContentType | ContentType(value: Option<string>)

  /** A Django `File`: its bytes, the current read position and its optional content type. */
  datatype Stream = Stream(data: seq<Byte>, position: nat, contentType: ContentTypeAttr)

  /** `stream.read()`: the bytes from the current position on (nothing past the end). */
  function Read(stream: Stream): seq<Byte> {
    if stream.position <= |stream.data| then stream.data[stream.position..] else []
  }

  /** `stream.seek(0)`. */
  function Rewind(stream: Stream): Stream {
    stream.(position := 0)
  }

  /** The content type of the uploaded part: the stream's own attribute, else `application/octet-stream`. */
  function UploadContentType(stream: Stream): (t: Option<string>)
    ensures stream.contentType.ContentType? ==> t == stream.contentType.value
    ensures stream.contentType.NoContentType? ==> t == Some(OctetStream)
  {
    match stream.contentType
    case NoContentType => Some(OctetStream)
    case ContentType(value) => value
  }

  /** The gateway endpoints that take a blob name as their last path segment. */
  datatype Endpoint = DownloadStream | DeleteBlob | ExistsBlob | Download | Info

  function EndpointPath(e: Endpoint): string {
    match e
    case DownloadStream => "/download-stream/"
    case DeleteBlob => "/delete/"
    case ExistsBlob => "/exists/"
    case Download => "/download/"
    case Info => "/info/"
  }

  function NamedUrl(cfg: Config, e: Endpoint, name: string): string {
    cfg.baseUrl + EndpointPath(e) + Quote(name)
  }

  /** One call of a storage method that talks to the gateway (`get_accessed_time` does not). */
  datatype Operation =
    | Save(name: string, content: Stream)
    | Open(name: string)
    | Delete(name: string)
    | Exists(name: string)
    | Url(name: string)
    | Size(name: string)
    | CreatedTime(name: string)
    | ModifiedTime(name: string)
    | Listdir(path: string)

  /** The endpoint a name-bearing operation addresses. */
  function EndpointOf(op: Operation): (e: Endpoint)
    requires !op.Save? && !op.Listdir?
  {
    match op
    case Open(_) => DownloadStream
    case Delete(_) => DeleteBlob
    case Exists(_) => ExistsBlob
    case Url(_) => Download
    case Size(_) => Info
    case CreatedTime(_) => Info
    case ModifiedTime(_) => Info
  }

  /** The request each storage method sends. */
  function BuildRequest(cfg: Config, op: Operation): (req: Request)
    ensures op.Save? || op.Open? ==> req.headers == AuthHeaders(cfg)
    ensures !op.Save? && !op.Open? ==> req.headers == map[]
    ensures req.timeout == (if op.Save? || op.Open? then 30 else 10)
    ensures req.verb == (if op.Save? then HttpPost else if op.Delete? then HttpDelete else HttpGet)
    ensures op.Save? <==> req.file.Some?
    ensures req.params != [] ==> op.Listdir?
  {
    match op
    case Save(name, stream) =>
      var content := Read(Rewind(stream));
      Request(HttpPost, cfg.baseUrl + "/upload", [], AuthHeaders(cfg), [("folder", cfg.folder)],
              Some(FilePart(name, content, UploadContentType(stream))), 30)
    case Open(name) => Request(HttpGet, NamedUrl(cfg, DownloadStream, name), [], AuthHeaders(cfg), [], None, 30)
    case Delete(name) => Request(HttpDelete, NamedUrl(cfg, DeleteBlob, name), [], map[], [], None, 10)
    case Exists(name) => Request(HttpGet, NamedUrl(cfg, ExistsBlob, name), [], map[], [], None, 10)
    case Url(name) => Request(HttpGet, NamedUrl(cfg, Download, name), [], map[], [], None, 10)
    case Size(name) => Request(HttpGet, NamedUrl(cfg, Info, name), [], map[], [], None, 10)
    case CreatedTime(name) => Request(HttpGet, NamedUrl(cfg, Info, name), [], map[], [], None, 10)
    case ModifiedTime(name) => Request(HttpGet, NamedUrl(cfg, Info, name), [], map[], [], None, 10)
    case Listdir(path) =>
      Request(HttpGet, cfg.baseUrl + "/list", if path != "" then [("folder", path)] else [], map[], [], None, 10)
  }

  /** The upload sends the folder field, the requested name and the WHOLE stream, wherever it was positioned. */
  lemma UploadRequestShape(cfg: Config, name: string, stream: Stream)
    ensures BuildRequest(cfg, Save(name, stream)).url == cfg.baseUrl + "/upload"
    ensures BuildRequest(cfg, Save(name, stream)).form == [("folder", cfg.folder)]
    ensures BuildRequest(cfg, Save(name, stream)).file == Some(FilePart(name, stream.data, UploadContentType(stream)))
  {
  }

  /** The listing request carries the `folder` parameter exactly when the path is not empty. */
  lemma ListRequestShape(cfg: Config, path: string)
    ensures BuildRequest(cfg, Listdir(path)).url == cfg.baseUrl + "/list"
    ensures path != "" ==> BuildRequest(cfg, Listdir(path)).params == [("folder", path)]
    ensures path == "" ==> BuildRequest(cfg, Listdir(path)).params == []
  {
  }

  // ---------------------------------------------------------------------------
  // Reading a request URL back: the name segment identifies endpoint and name
  // ---------------------------------------------------------------------------

  /** The position of the last `/` in `s`. */
  function LastSlash(s: string): (r: Option<nat>)
    ensures r.Some? ==> r.value < |s| && s[r.value] == '/'
    ensures r.Some? ==> forall j :: r.value < j < |s| ==> s[j] != '/'
    ensures r.None? ==> forall j :: 0 <= j < |s| ==> s[j] != '/'
  {
    if |s| == 0 then None
    else if s[|s| - 1] == '/' then Some(|s| - 1)
    else LastSlash(s[..|s| - 1])
  }

  /** The endpoint whose full prefix `base_url + path` is exactly `head`. */
  function EndpointAt(cfg: Config, head: string): Option<Endpoint> {
    if head == NamedUrl(cfg, DownloadStream, "") then Some(DownloadStream)
    else if head == NamedUrl(cfg, DeleteBlob, "") then Some(DeleteBlob)
    else if head == NamedUrl(cfg, ExistsBlob, "") then Some(ExistsBlob)
    else if head == NamedUrl(cfg, Download, "") then Some(Download)
    else if head == NamedUrl(cfg, Info, "") then Some(Info)
    else None
  }

  /** What a gateway router recovers from a URL: the endpoint and the decoded blob name. */
  function Route(cfg: Config, url: string): Option<(Endpoint, string)> {
    match LastSlash(url)
    case None => None
    case Some(i) =>
      match EndpointAt(cfg, url[..i + 1])
      case None => None
      case Some(e) =>
        match DecodeSegment(url[i + 1..])
        case None => None
        case Some(name) => Some((e, name))
  }

  lemma {:induction false} LastSlashAfter(head: string, tail: string)
    requires |head| > 0 && head[|head| - 1] == '/'
    requires '/' !in tail
    ensures LastSlash(head + tail) == Some(|head| - 1)
  {
    if |tail| > 0 {
      var s := head + tail;
      assert s[..|s| - 1] == head + tail[..|tail| - 1];
      assert s[|s| - 1] == tail[|tail| - 1];
      LastSlashAfter(head, tail[..|tail| - 1]);
    } else {
      assert head + tail == head;
    }
  }

  lemma EndpointPathsDistinct(cfg: Config, e: Endpoint, f: Endpoint)
    requires NamedUrl(cfg, e, "") == NamedUrl(cfg, f, "")
    ensures e == f
  {
    var base := cfg.baseUrl;
    assert Quote("") == "";
    assert NamedUrl(cfg, e, "") == base + EndpointPath(e);
    assert NamedUrl(cfg, f, "") == base + EndpointPath(f);
    assert (base + EndpointPath(e))[|base|..] == EndpointPath(e);
    assert (base + EndpointPath(f))[|base|..] == EndpointPath(f);
  }

  lemma EndpointAtOwnPath(cfg: Config, e: Endpoint)
    ensures EndpointAt(cfg, NamedUrl(cfg, e, "")) == Some(e)
  {
    var head := NamedUrl(cfg, e, "");
    forall f | head == NamedUrl(cfg, f, "")
      ensures f == e
    {
      EndpointPathsDistinct(cfg, e, f);
    }
  }

  /**
   * Every name-bearing URL the backend builds routes back to its own endpoint
   * and to the very name it was built from: the encoded name never spills
   * into a second path segment, and no two names or endpoints collide.
   */
  lemma RouteNamedUrl(cfg: Config, e: Endpoint, name: string)
    ensures Route(cfg, NamedUrl(cfg, e, name)) == Some((e, name))
  {
    var head := NamedUrl(cfg, e, "");
    assert Quote("") == "";
    assert head == cfg.baseUrl + EndpointPath(e);
    var url := NamedUrl(cfg, e, name);
    assert url == head + Quote(name);
    LastSlashAfter(head, Quote(name));
    assert url[..|head|] == head;
    assert url[|head|..] == Quote(name);
    QuoteRoundTrip(name);
    EndpointAtOwnPath(cfg, e);
  }

  /** Each name-bearing request targets its endpoint and routes back to the operation's name. */
  lemma NamedRequestRoutes(cfg: Config, op: Operation)
    requires !op.Save? && !op.Listdir?
    ensures BuildRequest(cfg, op).url == NamedUrl(cfg, EndpointOf(op), op.name)
    ensures Route(cfg, BuildRequest(cfg, op).url) == Some((EndpointOf(op), op.name))
  {
    RouteNamedUrl(cfg, EndpointOf(op), op.name);
  }

  // ---------------------------------------------------------------------------
  // Response interpretation
  // ---------------------------------------------------------------------------

  /** A 200 reply whose JSON is not an object: `data.get(...)` raises `AttributeError`. */
  predicate NonObjectOk(reply: Response) {
    reply.Http? && reply.status == 200 && reply.json.Some? && !reply.json.value.JObject?
  }

  /** A 200 reply carrying a JSON object. */
  predicate ObjectOk(reply: Response) {
    reply.Http? && reply.status == 200 && reply.json.Some? && reply.json.value.JObject?
  }

  /** `_save`. A success answer returns the gateway's `blob_path`, else the requested name. */
  function InterpretSave(name: string, reply: Response): (r: Outcome<Json>)
    ensures r.Returns? <==>
              && reply.Http? && !RaisesForStatus(reply.status)
              && reply.json.Some? && reply.json.value.JObject?
              && Lookup(reply.json.value.members, "status", JNull) == JString("success")
    ensures r.Returns? ==> r.value == Lookup(reply.json.value.members, "blob_path", JString(name))
    ensures (r.Raises? && r.exception.UploadRequestFailed?) <==>
              reply.NetworkError? || RaisesForStatus(reply.status) || reply.json.None?
    ensures reply.NetworkError? ==> r == Raises(UploadRequestFailed(ConnectionError))
    ensures reply.Http? && RaisesForStatus(reply.status) ==> r == Raises(UploadRequestFailed(HttpError(reply.status)))
    ensures reply.Http? && !RaisesForStatus(reply.status) && reply.json.None? ==>
              r == Raises(UploadRequestFailed(InvalidJson))
    ensures reply.Http? && !RaisesForStatus(reply.status) && reply.json.Some? && reply.json.value.JObject?
            && Lookup(reply.json.value.members, "status", JNull) != JString("success") ==>
              r == Raises(UploadFailed(Lookup(reply.json.value.members, "message", JString("Unknown error"))))
    ensures r == Raises(AttributeError) <==>
              reply.Http? && !RaisesForStatus(reply.status) && reply.json.Some? && !reply.json.value.JObject?
    ensures r.Raises? ==> r.exception.UploadRequestFailed? || r.exception.UploadFailed? || r.exception.AttributeError?
  {
    match reply
    case NetworkError => Raises(UploadRequestFailed(ConnectionError))
    case Http(status, _, json) =>
      if RaisesForStatus(status) then Raises(UploadRequestFailed(HttpError(status)))
      else
        match json
        case None => Raises(UploadRequestFailed(InvalidJson))
        case Some(JObject(members)) =>
          if Lookup(members, "status", JNull) == JString("success") then
            Returns(Lookup(members, "blob_path", JString(name)))
          else
            Raises(UploadFailed(Lookup(members, "message", JString("Unknown error"))))
        case Some(_) => Raises(AttributeError)
  }

  /** `ContentFile(content, name=name)`. */
  datatype ContentFile = ContentFile(name: string, content: seq<Byte>)

  /** `_open`. A 404 is `FileNotFoundError`, never folded into the generic download failure. */
  function InterpretOpen(name: string, reply: Response): (r: Outcome<ContentFile>)
    ensures r == Raises(FileNotFound(name)) <==> reply.Http? && reply.status == 404
    ensures (r.Raises? && r.exception.DownloadFailed?) <==>
              reply.NetworkError? || (reply.status != 404 && RaisesForStatus(reply.status))
    ensures r.Returns? <==> reply.Http? && !RaisesForStatus(reply.status)
    ensures r.Returns? ==> r.value == ContentFile(name, reply.content)
  {
    match reply
    case NetworkError => Raises(DownloadFailed(ConnectionError))
    case Http(status, content, _) =>
      if status == 404 then Raises(FileNotFound(name))
      else if RaisesForStatus(status) then Raises(DownloadFailed(HttpError(status)))
      else Returns(ContentFile(name, content))
  }

  /**
   * `delete`. Any status other than 404 has its body read as JSON; an
   * undecodable body and an `error` status are both ignored.
   */
  function InterpretDelete(reply: Response): (r: Outcome<()>)
    ensures r.Raises? <==> reply.Http? && reply.status != 404 && reply.json.Some? && !reply.json.value.JObject?
    ensures r.Raises? ==> r.exception == AttributeError
  {
    match reply
    case NetworkError => Returns(())
    case Http(status, _, json) =>
      if status == 404 then Returns(())
      else
        match json
        case None => Returns(())
        case Some(JObject(_)) => Returns(())
        case Some(_) => Raises(AttributeError)
  }

  /** `data.get(key, default)` on a metadata reply, with `default` for every failure. */
  function MetadataField(reply: Response, key: string, default: Json): (r: Outcome<Json>)
    ensures r.Raises? <==> NonObjectOk(reply)
    ensures r.Raises? ==> r.exception == AttributeError
    ensures !ObjectOk(reply) && r.Returns? ==> r.value == default
    ensures ObjectOk(reply) ==> r == Returns(Lookup(reply.json.value.members, key, default))
  {
    match reply
    case NetworkError => Returns(default)
    case Http(status, _, json) =>
      if status != 200 then Returns(default)
      else
        match json
        case None => Returns(default)
        case Some(JObject(members)) => Returns(Lookup(members, key, default))
        case Some(_) => Raises(AttributeError)
  }

  /** `exists`: true only when a 200 reply's object says `exists: true`. */
  function InterpretExists(reply: Response): (r: Outcome<Json>)
    ensures r == Returns(JBool(true)) <==>
              ObjectOk(reply) && Lookup(reply.json.value.members, "exists", JBool(false)) == JBool(true)
    ensures r.Raises? <==> NonObjectOk(reply)
    ensures ObjectOk(reply) ==> r == Returns(Lookup(reply.json.value.members, "exists", JBool(false)))
    ensures !ObjectOk(reply) && r.Returns? ==> r.value == JBool(false)
  {
    MetadataField(reply, "exists", JBool(false))
  }

  /** `url`: the gateway-issued signed URL, or `None`. */
  function InterpretUrl(reply: Response): (r: Outcome<Json>)
    ensures r.Returns? && r.value != JNull ==>
              ObjectOk(reply) && r.value == Lookup(reply.json.value.members, "url", JNull)
    ensures r.Raises? <==> NonObjectOk(reply)
    ensures ObjectOk(reply) ==> r == Returns(Lookup(reply.json.value.members, "url", JNull))
  {
    MetadataField(reply, "url", JNull)
  }

  /** `size`: the blob size from the info endpoint, `0` when it is unknown. */
  function InterpretSize(reply: Response): (r: Outcome<Json>)
    ensures r.Returns? && r.value != JNumber(0) ==>
              ObjectOk(reply) && r.value == Lookup(reply.json.value.members, "size", JNumber(0))
    ensures r.Raises? <==> NonObjectOk(reply)
    ensures ObjectOk(reply) ==> r == Returns(Lookup(reply.json.value.members, "size", JNumber(0)))
  {
    MetadataField(reply, "size", JNumber(0))
  }

  /** The `datetime` that `parsedate_to_datetime` returns; a `-0000` zone gives a naive one, with no offset. */
  datatype DateTime = DateTime(year: int, month: int, day: int, hour: int, minute: int, second: int, utcOffsetMinutes: Option<int>)

  /** `email.utils.parsedate_to_datetime` on a string; `None` where it raises `ValueError`. */
  type DateParser = string -> Option<DateTime>

  /** `get_accessed_time`: the gateway keeps no access time, so the answer is always `None`. */
  function AccessedTime(name: string): (t: Option<DateTime>)
    ensures t.None?
  {
    None
  }

  /**
   * `get_created_time`. A truthy `last_modified` that is not a string fails
   * inside the date parser, in `str.split`, with `AttributeError`.
   */
  function InterpretCreatedTime(reply: Response, parse: DateParser): (r: Outcome<Option<DateTime>>)
    ensures r.Returns? && r.value.Some? ==>
              && ObjectOk(reply)
              && var lm := Lookup(reply.json.value.members, "last_modified", JNull);
                 lm.JString? && lm.s != "" && r.value == parse(lm.s)
    ensures r.Raises? <==>
              || NonObjectOk(reply)
              || (ObjectOk(reply) &&
                  var lm := Lookup(reply.json.value.members, "last_modified", JNull);
                  Truthy(lm) && !lm.JString?)
    ensures r.Raises? ==> r.exception == AttributeError
    ensures ObjectOk(reply) &&
            (var lm := Lookup(reply.json.value.members, "last_modified", JNull); lm.JString? && lm.s != "") ==>
              r == Returns(parse(Lookup(reply.json.value.members, "last_modified", JNull).s))
    ensures r.Returns? && !(ObjectOk(reply) && Lookup(reply.json.value.members, "last_modified", JNull).JString?) ==>
              r == Returns(None)
  {
    match reply
    case NetworkError => Returns(None)
    case Http(status, _, json) =>
      if status != 200 then Returns(None)
      else
        match json
        case None => Returns(None)
        case Some(JObject(members)) =>
          var lastModified := Lookup(members, "last_modified", JNull);
          if !Truthy(lastModified) then Returns(None)
          else if lastModified.JString? then Returns(parse(lastModified.s))
          else Raises(AttributeError)
        case Some(_) => Raises(AttributeError)
  }

  /** `get_modified_time` delegates to `get_created_time`. */
  function InterpretModifiedTime(reply: Response, parse: DateParser): (r: Outcome<Option<DateTime>>)
    ensures r == InterpretCreatedTime(reply, parse)
  {
    InterpretCreatedTime(reply, parse)
  }

  /** Modified time is created time: the same request, and the same answer to the same reply. */
  lemma ModifiedTimeIsCreatedTime(cfg: Config, name: string, reply: Response, parse: DateParser)
    ensures BuildRequest(cfg, ModifiedTime(name)) == BuildRequest(cfg, CreatedTime(name))
    ensures BuildRequest(cfg, ModifiedTime(name)).url == BuildRequest(cfg, Size(name)).url
    ensures InterpretModifiedTime(reply, parse) == InterpretCreatedTime(reply, parse)
  {
  }
}

=== FILE: utf8.dfy ===
/**
 * UTF-8, as Python's `str.encode('utf-8')` produces it. `urllib.parse.quote`
 * encodes a text name to UTF-8 before percent-encoding it, so the name segment
 * of every gateway URL is built from these bytes.
 */
module Utf8 {
  import opened Optional

  /** An octet, as an element of Python's `bytes`. */
  type Byte = b: int | 0 <= b < 256

  /** Code points that are Unicode scalar values (no surrogates). */
  predicate IsScalar(v: int) {
    0 <= v < 0xD800 || 0xE000 <= v < 0x11_0000
  }

  predicate IsContinuation(b: Byte) {
    0x80 <= b < 0xC0
  }

  /** The one- to four-byte UTF-8 sequence of a single character. */
  function EncodeChar(c: char): (bs: seq<Byte>)
    ensures 1 <= |bs| <= 4
    ensures |bs| == 1 <==> (c as int) < 0x80
    ensures forall i :: 1 <= i < |bs| ==> IsContinuation(bs[i])
  {
    var v := c as int;
    if v < 0x80 then [v]
    else if v < 0x800 then [0xC0 + v / 64, 0x80 + v % 64]
    else if v < 0x1_0000 then [0xE0 + v / 4096, 0x80 + (v / 64) % 64, 0x80 + v % 64]
    else [0xF0 + v / 262144, 0x80 + (v / 4096) % 64, 0x80 + (v / 64) % 64, 0x80 + v % 64]
  }

  function Encode(s: string): (bs: seq<Byte>)
    ensures |s| <= |bs| <= 4 * |s|
  {
    if |s| == 0 then [] else EncodeChar(s[0]) + Encode(s[1..])
  }

  /**
   * Reads one character from the front of `bs`, returning it with the number
   * of bytes it took. Overlong forms, surrogates and code points above
   * U+10FFFF are rejected.
   */
  function DecodeChar(bs: seq<Byte>): (r: Option<(char, nat)>)
    ensures r.Some? ==> 1 <= r.value.1 <= |bs| && r.value.1 <= 4
  {
    if |bs| == 0 then None
    else
      var b0: int := bs[0];
      if b0 < 0x80 then Some((b0 as char, 1))
      else if 0xC0 <= b0 < 0xE0 then
        if |bs| >= 2 && IsContinuation(bs[1]) then
          var v := (b0 - 0xC0) * 64 + (bs[1] as int - 0x80);
          if 0x80 <= v then Some((v as char, 2)) else None
        else None
      else if 0xE0 <= b0 < 0xF0 then
        if |bs| >= 3 && IsContinuation(bs[1]) && IsContinuation(bs[2]) then
          var v := (b0 - 0xE0) * 4096 + (bs[1] as int - 0x80) * 64 + (bs[2] as int - 0x80);
          if 0x800 <= v && IsScalar(v) then Some((v as char, 3)) else None
        else None
      else if 0xF0 <= b0 < 0xF8 then
        if |bs| >= 4 && IsContinuation(bs[1]) && IsContinuation(bs[2]) && IsContinuation(bs[3]) then
          var v := (b0 - 0xF0) * 262144 + (bs[1] as int - 0x80) * 4096 + (bs[2] as int - 0x80) * 64 + (bs[3] as int - 0x80);
          if 0x1_0000 <= v < 0x11_0000 then Some((v as char, 4)) else None
        else None
      else None
  }

  function Decode(bs: seq<Byte>): (r: Option<string>)
    decreases |bs|
  {
    if |bs| == 0 then Some([])
    else
      match DecodeChar(bs)
      case None => None
      case Some((c, n)) =>
        match Decode(bs[n..])
        case None => None
        case Some(rest) => Some([c] + rest)
  }

  /** Decoding reads back exactly the character that `EncodeChar` wrote, and no more. */
  lemma DecodeCharOfEncoding(c: char, rest: seq<Byte>)
    ensures DecodeChar(EncodeChar(c) + rest) == Some((c, |EncodeChar(c)|))
  {
    var v := c as int;
    if v < 0x80 {
      assert (EncodeChar(c) + rest)[0] == v;
    } else if v < 0x800 {
      DecodeTwoBytes(c, rest);
    } else if v < 0x1_0000 {
      DecodeThreeBytes(c, rest);
    } else {
      DecodeFourBytes(c, rest);
    }
  }

  lemma DecodeTwoBytes(c: char, rest: seq<Byte>)
    requires 0x80 <= c as int < 0x800
    ensures DecodeChar(EncodeChar(c) + rest) == Some((c, 2))
  {
    var v := c as int;
    var bs := EncodeChar(c) + rest;
    assert bs[0] == 0xC0 + v / 64 && bs[1] == 0x80 + v % 64;
    assert (bs[0] as int - 0xC0) * 64 + (bs[1] as int - 0x80) == v;
  }

  lemma DecodeThreeBytes(c: char, rest: seq<Byte>)
    requires 0x800 <= c as int < 0x1_0000
    ensures DecodeChar(EncodeChar(c) + rest) == Some((c, 3))
  {
    var v := c as int;
    var bs := EncodeChar(c) + rest;
    assert bs[0] == 0xE0 + v / 4096 && bs[1] == 0x80 + (v / 64) % 64 && bs[2] == 0x80 + v % 64;
    SplitSixBits(v);
    SplitSixBits(v / 64);
    assert (bs[0] as int - 0xE0) * 4096 + (bs[1] as int - 0x80) * 64 + (bs[2] as int - 0x80) == v;
    assert IsScalar(v);
  }

  lemma DecodeFourBytes(c: char, rest: seq<Byte>)
    requires 0x1_0000 <= c as int
    ensures DecodeChar(EncodeChar(c) + rest) == Some((c, 4))
  {
    var v := c as int;
    var bs := EncodeChar(c) + rest;
    assert bs[0] == 0xF0 + v / 262144 && bs[1] == 0x80 + (v / 4096) % 64;
    assert bs[2] == 0x80 + (v / 64) % 64 && bs[3] == 0x80 + v % 64;
    SplitSixBits(v);
    SplitSixBits(v / 64);
    SplitSixBits(v / 4096);
    assert (bs[0] as int - 0xF0) * 262144 + (bs[1] as int - 0x80) * 4096 + (bs[2] as int - 0x80) * 64 + (bs[3] as int - 0x80) == v;
  }

  /** The low six bits and the rest of a non-negative number. */
  lemma SplitSixBits(n: int)
    requires n >= 0
    ensures n == (n / 64) * 64 + n % 64
    ensures n / 64 / 64 == n / 4096 && n / 4096 / 64 == n / 262144
  {
  }

  /** UTF-8 decoding inverts encoding: distinct names have distinct byte sequences. */
  lemma {:induction false} DecodeEncode(s: string)
    ensures Decode(Encode(s)) == Some(s)
  {
    if |s| > 0 {
      var head := EncodeChar(s[0]);
      var bs := Encode(s);
      assert bs == head + Encode(s[1..]);
      DecodeCharOfEncoding(s[0], Encode(s[1..]));
      assert bs[|head|..] == Encode(s[1..]);
      DecodeEncode(s[1..]);
      assert [s[0]] + s[1..] == s;
    }
  }

  /** Text made only of ASCII characters encodes to its own code points, one byte each. */
  lemma {:induction false} EncodeAscii(s: string)
    requires forall i :: 0 <= i < |s| ==> (s[i] as int) < 0x80
    ensures |Encode(s)| == |s|
    ensures forall i :: 0 <= i < |s| ==> Encode(s)[i] == s[i] as int
  {
    if |s| > 0 {
      EncodeAscii(s[1..]);
      assert Encode(s) == [s[0] as int] + Encode(s[1..]);
    }
  }

  /** Encoding works character by character, so it distributes over concatenation. */
  lemma {:induction false} EncodeAppend(a: string, b: string)
    ensures Encode(a + b) == Encode(a) + Encode(b)
    decreases |a|
  {
    if |a| > 0 {
      assert (a + b)[0] == a[0];
      assert (a + b)[1..] == a[1..] + b;
      EncodeAppend(a[1..], b);
    } else {
      assert a + b == b;
    }
  }
}
